=== FILE: README.md ===
# GraalWasm host API facade, modelled in Dafny

This project models the `WebAssembly` facade object of GraalWasm. The facade is the
host-facing layer that the JavaScript-style embedding API calls into. It normalises loosely typed host
arguments, allocates and manipulates tables of function references, formats
function signatures, and validates and instantiates modules. Argument and table
failures are raised as a classified `WasmJsApiException` (TypeError, RangeError or
LinkError), after the error taxonomy of the WebAssembly JavaScript Interface.
Engine exceptions from compilation and linking, and the
`NegativeArraySizeException` of a byte source with a negative size, pass through
unchanged. The table
operations follow `table_alloc`, `table_read`, `table_write`, `table_size` and
`table_grow` of the Embedding appendix (Tables subsection) of the WebAssembly Core
Specification.

The model is functional: host values, tables and functions are immutable
datatypes, every facade entry point returns a `Result` whose failure is the
exception the Java code would throw, and an operation that mutates a table returns
the changed table.

Java integers are bounded mathematical integers (`JavaInt.Int32` and friends).
The unsigned reading of an `int` (`JavaInt.Unsigned`) makes
`Integer.compareUnsigned` and `WasmMath.minUnsigned` explicit. The sentinel maximum
-1 is therefore 2^32-1 when read unsigned.

Modules:
- `Wrappers` — `Option`, `Result`, `Outcome`.
- `JavaInt` — Java integer ranges, the unsigned view, the `(int)` and `(byte)` casts.
- `Decimal` — `Integer.toString` and its inverse.
- `Errors` — error kinds and exceptions.
- `Functions` — value types, function signatures, `functionTypeToString`, and a parser that inverts it.
- `Tables` — the engine's `WasmTable`, whose code is not part of this model. Its operations are stated as the contracts the facade relies on: assumptions, listed below.
- `HostValues` — host values and the interop library as a record of total functions returning `Option`.
- `TableApi` — the five table operations.
- `Coercion` — argument counts, `toBytes`, `toSizeLimits`.
- `Globals` — `createGlobal`.
- `Api` — argument-level entry points, `validate`, `compile`, `instantiate`.

Behaviour of the code worth knowing, kept as written:
- `func_type` prints the `ValueType` names, so function 7 taking (i32, i32) and returning f64 prints `7(i32i32)f64`.
- `validate` catches only `WasmException`. Other exceptions from compilation, and the TypeErrors of the argument and byte checks, propagate.
- `toBytes` accepts a size equal to its own `(int)` cast, so it refuses sizes of 2^31 and above. A size below -2^31 fails that test as well and gives the TypeError. A negative size of at least -2^31 passes it, and `new byte[size]` then throws `NegativeArraySizeException`, which nothing catches (`Coercion.NegativeArraySize`).
- `tableAlloc` checks the initial size against the maximum first, with the message "Min table size exceeds max memory size", and then against the memory instance size limit, with the message "Min table size exceeds implementation limit".
- The second `createGlobal` message names the mutability argument "First argument (mutable)".

## Model

| member | source | states |
|---|---|---|
| JavaInt.CompareUnsigned | wasm/src/org.graalvm.wasm/src/org/graalvm/wasm/api/WebAssembly.java:270-275 | positive, zero or negative exactly as the unsigned readings of the two ints compare |
| JavaInt.MinUnsigned | wasm/src/org.graalvm.wasm/src/org/graalvm/wasm/api/WebAssembly.java:276 | the result is one of the two arguments and is unsigned-below both |
| JavaInt.LongToIntExact | wasm/src/org.graalvm.wasm/src/org/graalvm/wasm/api/WebAssembly.java:146-147 | a long equals its `(int)` cast exactly when it lies in [-2^31, 2^31) |
| JavaInt.LongToInt | wasm/src/org.graalvm.wasm/src/org/graalvm/wasm/api/WebAssembly.java:147 | the `(int)` cast of a long is an int congruent to it modulo 2^32 |
| HostValues.JavaNumber.ByteValue | wasm/src/org.graalvm.wasm/src/org/graalvm/wasm/api/WebAssembly.java:152 | for an integral box the byte is congruent to the boxed value modulo 256; any other `Number` gives its own `byteValue()` |
| Coercion.ElementByte | wasm/src/org.graalvm.wasm/src/org/graalvm/wasm/api/WebAssembly.java:150-155 | an element that is a `Number` converts by `byteValue()`, any other element by the interop byte conversion, and an unreadable element does not convert |
| Coercion.BytesFailure | wasm/src/org.graalvm.wasm/src/org/graalvm/wasm/api/WebAssembly.java:146-163 | a convertible-looking size that is negative gives the uncaught negative-size fault, every other refusal the TypeError "Cannot convert to bytes" |
| Decimal.IntToDecimal | wasm/src/org.graalvm.wasm/src/org/graalvm/wasm/api/WebAssembly.java:383 | the text of an int is non-empty, starts with a minus sign exactly when the int is negative, and holds no parenthesis |
| Decimal.IntToDecimalRoundTrip | wasm/src/org.graalvm.wasm/src/org/graalvm/wasm/api/WebAssembly.java:383 | the decimal text appended for the function index parses back to that index |
| Functions.TypeName | wasm/src/org.graalvm.wasm/src/org/graalvm/wasm/api/WebAssembly.java:386-395 | the text of a value type is three characters: the kind letter `i` or `f`, then the bit width 32 or 64 (the enum constant names, assumed) |
| Functions.FromByteValue | wasm/src/org.graalvm.wasm/src/org/graalvm/wasm/api/WebAssembly.java:388 | a decoded type code is the code of the value type it names |
| Functions.FunctionTypeToString | wasm/src/org.graalvm.wasm/src/org/graalvm/wasm/api/WebAssembly.java:380-397 | the builder output is the decimal index, `(`, one type name per argument in declaration order, `)`, and the result name only when the result is not void |
| Functions.SignatureRoundTrip | wasm/src/org.graalvm.wasm/src/org/graalvm/wasm/api/WebAssembly.java:380-397 | parsing the signature text gives back the index, the argument types in order, and the result type (none for void) |
| Functions.SignatureTextInjective | wasm/src/org.graalvm.wasm/src/org/graalvm/wasm/api/WebAssembly.java:380-397 | two functions have the same signature text exactly when they are the same function |
| Functions.SignatureTextExample | wasm/src/org.graalvm.wasm/src/org/graalvm/wasm/api/WebAssembly.java:380-397 | function 7 taking two i32 and returning f64 prints as `7(i32i32)f64` |
| Tables.Create | wasm/src/org.graalvm.wasm/src/org/graalvm/wasm/api/WebAssembly.java:277 | a new table has `initial` empty slots, keeps the declared maximum and the growth bound, and respects the bound (assumed) |
| Tables.Size | wasm/src/org.graalvm.wasm/src/org/graalvm/wasm/api/WebAssembly.java:294 | the size is the int whose unsigned reading is the slot count (assumed) |
| Tables.Grow | wasm/src/org.graalvm.wasm/src/org/graalvm/wasm/api/WebAssembly.java:296-298 | growth succeeds exactly for a non-negative delta keeping the size within the bound, appends delta empty slots and keeps the old ones; otherwise an argument error (assumed) |
| Tables.Get | wasm/src/org.graalvm.wasm/src/org/graalvm/wasm/api/WebAssembly.java:318-321 | a read succeeds exactly for an index in [0, size) and returns that slot; otherwise an `ArrayIndexOutOfBoundsException` with the runtime's message (assumed) |
| Tables.Set | wasm/src/org.graalvm.wasm/src/org/graalvm/wasm/api/WebAssembly.java:349-351 | a write succeeds exactly for an index in [0, size), replaces that slot only; otherwise an `ArrayIndexOutOfBoundsException` with the runtime's message (assumed) |
| TableApi.TableAlloc | wasm/src/org.graalvm.wasm/src/org/graalvm/wasm/api/WebAssembly.java:269-278 | LinkError exactly when initial exceeds maximum or the limit (unsigned), with the first failing check's message; otherwise initial empty slots and a bound equal to the unsigned minimum of maximum and limit, never below initial |
| TableApi.TableGrow | wasm/src/org.graalvm.wasm/src/org/graalvm/wasm/api/WebAssembly.java:293-301 | on success returns the size before growth and the table grown by delta empty slots; a rejected grow becomes a RangeError with the table's own message |
| TableApi.AsTableValue | wasm/src/org.graalvm.wasm/src/org/graalvm/wasm/api/WebAssembly.java:319 | the void marker stands exactly for an empty slot, and a returned function is the slot's content |
| TableApi.TableRead | wasm/src/org.graalvm.wasm/src/org/graalvm/wasm/api/WebAssembly.java:316-323 | succeeds exactly in bounds; an empty slot reads as the void marker, a filled slot as its function; out of bounds is a RangeError naming the index |
| TableApi.ClassifyElement | wasm/src/org.graalvm.wasm/src/org/graalvm/wasm/api/WebAssembly.java:339-346 | a function instance is stored as itself, a host null clears the slot, anything else is invalid |
| TableApi.TableWrite | wasm/src/org.graalvm.wasm/src/org/graalvm/wasm/api/WebAssembly.java:338-355 | an invalid element is a TypeError whatever the index; a valid one is written exactly when in bounds, only that slot changes, and the void marker is returned; out of bounds is a RangeError |
| TableApi.TableSize | wasm/src/org.graalvm.wasm/src/org/graalvm/wasm/api/WebAssembly.java:366-368 | the unsigned reading of the result is the slot count |
| TableApi.AllocThenRead | wasm/src/org.graalvm.wasm/src/org/graalvm/wasm/api/WebAssembly.java:269-278 | a table allocated within its limits has size initial and every slot reads as void |
| TableApi.GrowThenRead | wasm/src/org.graalvm.wasm/src/org/graalvm/wasm/api/WebAssembly.java:293-301 | after a grow the new size is the returned size plus delta, old slots read as before, new slots read as void; a failed grow is a RangeError |
| TableApi.WriteThenRead | wasm/src/org.graalvm.wasm/src/org/graalvm/wasm/api/WebAssembly.java:338-355 | reading back a written index gives the written function or the void marker for null; other indices read as before |
| TableApi.OutOfBoundsIsRangeError | wasm/src/org.graalvm.wasm/src/org/graalvm/wasm/api/WebAssembly.java:316-355 | outside the table every read and every write of a valid element is a RangeError |
| Coercion.CheckArgumentCount | wasm/src/org.graalvm.wasm/src/org/graalvm/wasm/api/WebAssembly.java:136-140 | passes exactly when there are at least the required number of arguments, else TypeError "Insufficient number of arguments" |
| Coercion.SourceBytes | wasm/src/org.graalvm.wasm/src/org/graalvm/wasm/api/WebAssembly.java:148-156 | the converted bytes have the reported length, and byte i is element i's `byteValue()` or its interop byte |
| Coercion.ToBytes | wasm/src/org.graalvm.wasm/src/org/graalvm/wasm/api/WebAssembly.java:142-170 | succeeds exactly for an array-like value whose size is a non-negative int and whose elements all convert; byte i comes from element i; otherwise TypeError "Cannot convert to bytes", or the uncaught negative-size fault |
| Coercion.ArraySize | wasm/src/org.graalvm.wasm/src/org/graalvm/wasm/api/WebAssembly.java:144-146 | a value that has no array elements reports no size; an array-like value reports what `getArraySize` answers, or nothing when that throws |
| Coercion.SizeFitsInt | wasm/src/org.graalvm.wasm/src/org/graalvm/wasm/api/WebAssembly.java:147 | a size passes the `(int)` test exactly when it lies in [-2^31, 2^31) |
| Coercion.ToSizeLimits | wasm/src/org.graalvm.wasm/src/org/graalvm/wasm/api/WebAssembly.java:172-196 | no argument, an unconvertible initial or an unconvertible maximum each give their own TypeError; otherwise initial and maximum are the converted arguments, maximum -1 when absent |
| Coercion.AbsentMaximumIsUnbounded | wasm/src/org.graalvm.wasm/src/org/graalvm/wasm/api/WebAssembly.java:184-187 | an absent maximum is -1, which read unsigned is 2^32-1 and never below the initial size |
| Globals.CoerceValue | wasm/src/org.graalvm.wasm/src/org/graalvm/wasm/api/WebAssembly.java:223-237 | for each tag the result exists exactly when the matching interop message (`asInt`, `asLong`, `asFloat`, `asDouble`) answers, and is that answer of the tag's kind |
| Globals.CreateGlobal | wasm/src/org.graalvm.wasm/src/org/graalvm/wasm/api/WebAssembly.java:203-240 | argument count, value-type text, mutability and tag are checked in that order, each failing with its own TypeError; a created global holds the text tag, the boolean and the value converted by the tag's interop message |
| Globals.CreateGlobalConversion | wasm/src/org.graalvm.wasm/src/org/graalvm/wasm/api/WebAssembly.java:223-237 | with a recognised tag, creation fails exactly when the value does not convert, with the conversion message |
| Api.IsInteger | wasm/src/org.graalvm.wasm/src/org/graalvm/wasm/api/WebAssembly.java:285 | a value passes the `instanceof Integer` test (here and at lines 308 and 330) exactly when it is an `Integer` box of some int |
| Api.TableAndInteger | wasm/src/org.graalvm.wasm/src/org/graalvm/wasm/api/WebAssembly.java:280-290 | the first argument must be a table and the second an Integer, each with its own TypeError |
| Api.TableAllocArgs | wasm/src/org.graalvm.wasm/src/org/graalvm/wasm/api/WebAssembly.java:264-267 | limit errors propagate; otherwise the result is the allocation with the parsed limits |
| Api.AllocWithoutMaximum | wasm/src/org.graalvm.wasm/src/org/graalvm/wasm/api/WebAssembly.java:264-278 | with a single argument, allocation fails only when initial exceeds the implementation limit, and then with that message |
| Api.TableGrowArgs | wasm/src/org.graalvm.wasm/src/org/graalvm/wasm/api/WebAssembly.java:280-291 | argument errors first, then the table grow |
| Api.TableReadArgs | wasm/src/org.graalvm.wasm/src/org/graalvm/wasm/api/WebAssembly.java:303-314 | argument errors first, then the table read |
| Api.TableWriteArgs | wasm/src/org.graalvm.wasm/src/org/graalvm/wasm/api/WebAssembly.java:325-336 | argument errors first, then the table write of the third argument |
| Api.TableSizeArgs | wasm/src/org.graalvm.wasm/src/org/graalvm/wasm/api/WebAssembly.java:357-364 | a table argument gives its slot count; anything else is a TypeError |
| Api.FuncType | wasm/src/org.graalvm.wasm/src/org/graalvm/wasm/api/WebAssembly.java:370-378 | a function argument gives exactly the `functionTypeToString` text, which parses back to its index and types; anything else is a TypeError |
| Api.Validate | wasm/src/org.graalvm.wasm/src/org/graalvm/wasm/api/WebAssembly.java:127-134 | true exactly when compilation succeeds, false exactly when it throws a `WasmException`; any other exception propagates |
| Api.ValidateArgs | wasm/src/org.graalvm.wasm/src/org/graalvm/wasm/api/WebAssembly.java:122-125 | validation of the converted bytes of the first argument, or the conversion's failure |
| Api.CompileArgs | wasm/src/org.graalvm.wasm/src/org/graalvm/wasm/api/WebAssembly.java:112-120 | compilation of the converted bytes of the first argument, or the conversion's failure |
| Api.InstantiateModule | wasm/src/org.graalvm.wasm/src/org/graalvm/wasm/api/WebAssembly.java:102-110 | the outcome is the linker's, success or failure alike, and the inner context is entered first and left last, exactly once, with what entering returned, and linking happens once in between |
| Api.InstantiateArgs | wasm/src/org.graalvm.wasm/src/org/graalvm/wasm/api/WebAssembly.java:85-100 | a module is linked directly; other sources are converted and compiled first, and a failure there enters no context; a link failure is rethrown unchanged; every path leaves the context it entered |

## Left out

- `moduleExports`, `moduleImports`, `moduleCustomSections` and `toModule` are not modelled: they forward to `Module` methods, and `Module` is not part of this model.
- `createMemory` is not modelled: it passes the parsed limits to `Memory.create`, which is not part of this model. Its limit parsing is `Coercion.ToSizeLimits`.
- The facade constructor's member registration is not modelled: it is dictionary plumbing.
- Module compilation (`new Module`), linking (`new Instance`), creation of the inner `TruffleContext` and the value `enter` returns are parameters (`Api.Engine`). Their behaviour is outside this model.
- Interop messages (`hasArrayElements`, `getArraySize`, `readArrayElement`, `asByte`, `asInt`, `asLong`, `asFloat`, `asDouble`, `asString`, `asBoolean`, `isNull`) are parameters (`HostValues.Interop`). Each is a total function; `None` stands for the exception it may throw.
- Floating point and the other `Number` classes: `asFloat` and `asDouble` results are kept as raw bit patterns. A `Float`, `Double`, `BigInteger`, `BigDecimal` or other non-integral-box element of a byte source takes the `byteValue()` branch like every `Number`, but its byte is carried by the box (`OtherNumber`) rather than computed from its value.
- Exception causes: `cannotConvertToBytesError` attaches the interop exception as a cause; the model keeps kind and message only.
- Object identity and in-place mutation: tables are values, and a changed table is returned rather than updated in place.
- `WasmTable`, `ValueType`, `WasmType` and `JsConstants` are not part of this model. The `Tables` operations are assumed contracts. The message of a rejected grow (`Tables.GrowLimitMessage`) is assumed, and so is the index-fault message in the Java runtime's array wording. The type codes are those of the Wasm binary format (0x7F, 0x7E, 0x7D, 0x7C, void 0x40); the type names are the enum constant names. The implementation limit is a parameter.
- Functions.FunctionTypeToString: requires every argument code to be a value type and the result code to be a value type or void. This holds for the functions of validated modules; what `ValueType.fromByteValue` does with any other byte is not part of this model.
- Api.InstantiateModule: assumes that entering and leaving the inner context never throw. In the source, `enter` runs before the `try`, so if it throws nothing is linked and nothing is left; `leave` runs in the `finally`, so if it throws its exception replaces both the returned instance and any linker exception.
- Tables.Set: assumed to signal an out-of-range index with `ArrayIndexOutOfBoundsException`, the only index fault `tableWrite` catches; a plain `IndexOutOfBoundsException` would escape it unclassified (`TableApi.Uncaught`), while `tableRead` catches both. `Tables.Get` is assumed to throw the same subclass.
- Tables.Grow: a negative delta is assumed to be rejected, and the size arithmetic is taken without 32-bit wrap-around.

=== FILE: api.dfy ===
/** The entry points of the `WebAssembly` facade object: argument dispatch,
    validation and instantiation. */
module Api {
  import opened Wrappers
  import opened JavaInt
  import opened Errors
  import opened Functions
  import opened Tables
  import opened HostValues
  import opened TableApi
  import opened Coercion

  const NotTableMessage: string := "First argument must be wasm table"
  const NotIntegerMessage: string := "Second argument must be integer"
  const NotFunctionMessage: string := "First argument must be wasm function"

  predicate AllWellFormed(args: seq<Value>) {
    forall i :: 0 <= i < |args| ==> WellFormed(args[i])
  }

  /** The `(Integer)` argument of the table operations. */
  function IsInteger(v: Value): (b: bool)
    ensures b <==> exists i: Int32 :: v == Number(JavaInteger(i))
  {
    v.Number? && v.number.JavaInteger?
  }

  /** The table and index arguments shared by `table_grow`, `table_read` and
      `table_write`, after the argument count has been checked. */
  function TableAndInteger(args: seq<Value>): (r: Result<(WasmTable, Int32), Exception>)
    requires |args| >= 2
    ensures r.Success? <==> args[0].TableRef? && IsInteger(args[1])
    ensures !args[0].TableRef? ==> r == Failure(JsApiException(TypeError, NotTableMessage))
    ensures args[0].TableRef? && !IsInteger(args[1]) ==>
      r == Failure(JsApiException(TypeError, NotIntegerMessage))
    ensures r.Success? ==> r.value == (args[0].table, args[1].number.i)
  {
    if !args[0].TableRef? then Failure(JsApiException(TypeError, NotTableMessage))
    else if !IsInteger(args[1]) then Failure(JsApiException(TypeError, NotIntegerMessage))
    else Success((args[0].table, args[1].number.i))
  }

  /** `tableAlloc(args)`: limits from the arguments, then the allocation. */
  function TableAllocArgs(args: seq<Value>, interop: Interop, limit: Int32): (r: Result<WasmTable, Exception>)
    ensures ToSizeLimits(args, interop).Failure? ==> r == Failure(ToSizeLimits(args, interop).error)
    ensures ToSizeLimits(args, interop).Success? ==>
      var limits := ToSizeLimits(args, interop).value;
      r == TableAlloc(limits.initial, limits.maximum, limit)
  {
    var limits :- ToSizeLimits(args, interop);
    TableAlloc(limits.initial, limits.maximum, limit)
  }

  /** With the maximum left out, allocation can fail only on the
      implementation limit, never on the maximum. */
  lemma AllocWithoutMaximum(args: seq<Value>, interop: Interop, limit: Int32)
    requires |args| == 1 && interop.asInt(args[0]).Some?
    ensures var initial := interop.asInt(args[0]).value;
      TableAllocArgs(args, interop, limit).Failure? <==> Unsigned(initial) > Unsigned(limit)
    ensures TableAllocArgs(args, interop, limit).Failure? ==>
      TableAllocArgs(args, interop, limit).error == JsApiException(LinkError, MinExceedsLimitMessage)
  {
    AbsentMaximumIsUnbounded(args, interop);
  }

  /** `tableGrow(args)`. */
  function TableGrowArgs(args: seq<Value>): (r: Result<(Int32, WasmTable), Exception>)
    requires AllWellFormed(args)
    ensures |args| < 2 ==> r == Failure(JsApiException(TypeError, InsufficientArgumentsMessage))
    ensures |args| >= 2 && TableAndInteger(args).Failure? ==> r == Failure(TableAndInteger(args).error)
    ensures |args| >= 2 && TableAndInteger(args).Success? ==>
      r == TableGrow(args[0].table, args[1].number.i)
  {
    match CheckArgumentCount(args, 2)
    case Fail(e) => Failure(e)
    case Pass =>
      var (table, delta) :- TableAndInteger(args);
      assert WellFormed(args[0]);
      TableGrow(table, delta)
  }

  /** `tableRead(args)`. */
  function TableReadArgs(args: seq<Value>): (r: Result<TableValue, Exception>)
    ensures |args| < 2 ==> r == Failure(JsApiException(TypeError, InsufficientArgumentsMessage))
    ensures |args| >= 2 && TableAndInteger(args).Failure? ==> r == Failure(TableAndInteger(args).error)
    ensures |args| >= 2 && TableAndInteger(args).Success? ==>
      r == TableRead(args[0].table, args[1].number.i)
  {
    match CheckArgumentCount(args, 2)
    case Fail(e) => Failure(e)
    case Pass =>
      var (table, index) :- TableAndInteger(args);
      TableRead(table, index)
  }

  /** `tableWrite(args)`: the element is the third argument. */
  function TableWriteArgs(args: seq<Value>, interop: Interop): (r: Result<(TableValue, WasmTable), Exception>)
    ensures |args| < 3 ==> r == Failure(JsApiException(TypeError, InsufficientArgumentsMessage))
    ensures |args| >= 3 && TableAndInteger(args).Failure? ==> r == Failure(TableAndInteger(args).error)
    ensures |args| >= 3 && TableAndInteger(args).Success? ==>
      r == TableWrite(args[0].table, args[1].number.i, args[2], interop)
  {
    match CheckArgumentCount(args, 3)
    case Fail(e) => Failure(e)
    case Pass =>
      var (table, index) :- TableAndInteger(args);
      TableWrite(table, index, args[2], interop)
  }

  /** `tableSize(args)`. */
  function TableSizeArgs(args: seq<Value>): (r: Result<Int32, Exception>)
    requires AllWellFormed(args)
    ensures |args| == 0 ==> r == Failure(JsApiException(TypeError, InsufficientArgumentsMessage))
    ensures |args| > 0 && !args[0].TableRef? ==> r == Failure(JsApiException(TypeError, NotTableMessage))
    ensures |args| > 0 && args[0].TableRef? ==>
      r.Success? && Unsigned(r.value) == |args[0].table.elements|
  {
    match CheckArgumentCount(args, 1)
    case Fail(e) => Failure(e)
    case Pass =>
      if !args[0].TableRef? then Failure(JsApiException(TypeError, NotTableMessage))
      else
        assert WellFormed(args[0]);
        Success(TableSize(args[0].table))
  }

  /** `funcType(args)`: the signature text of a function argument. */
  method FuncType(args: seq<Value>) returns (r: Result<string, Exception>)
    requires AllWellFormed(args)
    ensures |args| == 0 ==> r == Failure(JsApiException(TypeError, InsufficientArgumentsMessage))
    ensures |args| > 0 && !args[0].FunctionRef? ==> r == Failure(JsApiException(TypeError, NotFunctionMessage))
    ensures |args| > 0 && args[0].FunctionRef? ==> r == Success(SignatureText(args[0].instance.fn))
    ensures |args| > 0 && args[0].FunctionRef? ==>
      r.Success? && ParseSignature(r.value) == Some(Signature(
        args[0].instance.fn.index,
        DecodeAll(args[0].instance.fn.argumentTypes),
        DecodeReturn(args[0].instance.fn)))
  {
    if |args| < 1 {
      return Failure(JsApiException(TypeError, InsufficientArgumentsMessage));
    }
    if !args[0].FunctionRef? {
      return Failure(JsApiException(TypeError, NotFunctionMessage));
    }
    assert WellFormed(args[0]);
    var fn := args[0].instance.fn;
    var text := FunctionTypeToString(fn);
    SignatureRoundTrip(fn);
    return Success(text);
  }

  /** The engine outside this model: module compilation, linking an instance,
      and the inner context it creates together with the context that was
      current when it is entered. */
  datatype Engine = Engine(
    compile: seq<Int8> -> Result<Module, Exception>,
    link: (nat, Module, Value) -> Result<Instance, Exception>,
    innerContext: nat,
    previousContext: nat)

  /** `validate(bytes)`: whether compilation succeeds; only a `WasmException`
      is turned into `false`. */
  function Validate(bytes: seq<Int8>, engine: Engine): (r: Result<bool, Exception>)
    ensures r == Success(true) <==> engine.compile(bytes).Success?
    ensures r == Success(false) <==>
      engine.compile(bytes).Failure? && engine.compile(bytes).error.WasmException?
    ensures r.Failure? ==>
      engine.compile(bytes).Failure? && r.error == engine.compile(bytes).error && !r.error.WasmException?
  {
    match engine.compile(bytes)
    case Success(_) => Success(true)
    case Failure(e) => if e.WasmException? then Success(false) else Failure(e)
  }

  /** `validate(args)`. */
  method ValidateArgs(args: seq<Value>, interop: Interop, engine: Engine) returns (r: Result<bool, Exception>)
    ensures |args| == 0 ==> r == Failure(JsApiException(TypeError, InsufficientArgumentsMessage))
    ensures |args| > 0 && Convertible(args[0], interop) ==>
      r == Validate(SourceBytes(args[0], interop), engine)
    ensures |args| > 0 && !Convertible(args[0], interop) ==>
      r == Failure(BytesFailure(args[0], interop))
  {
    if |args| < 1 {
      return Failure(JsApiException(TypeError, InsufficientArgumentsMessage));
    }
    var bytes :- ToBytes(args[0], interop);
    r := Validate(bytes, engine);
  }

  /** `compile(args)`. */
  method CompileArgs(args: seq<Value>, interop: Interop, engine: Engine) returns (r: Result<Module, Exception>)
    ensures |args| == 0 ==> r == Failure(JsApiException(TypeError, InsufficientArgumentsMessage))
    ensures |args| > 0 && Convertible(args[0], interop) ==>
      r == engine.compile(SourceBytes(args[0], interop))
    ensures |args| > 0 && !Convertible(args[0], interop) ==>
      r == Failure(BytesFailure(args[0], interop))
  {
    if |args| < 1 {
      return Failure(JsApiException(TypeError, InsufficientArgumentsMessage));
    }
    var bytes :- ToBytes(args[0], interop);
    r := engine.compile(bytes);
  }

  /** Entering the inner context, linking inside it, and leaving it;
      `previous` is what entering returned. */
  datatype ContextEvent = Enter(context: nat) | Link(context: nat) | Leave(context: nat, previous: nat)

  function Entered(trace: seq<ContextEvent>): nat {
    if |trace| == 0 then 0 else Entered(trace[..|trace| - 1]) + (if trace[|trace| - 1].Enter? then 1 else 0)
  }

  function Linked(trace: seq<ContextEvent>): nat {
    if |trace| == 0 then 0 else Linked(trace[..|trace| - 1]) + (if trace[|trace| - 1].Link? then 1 else 0)
  }

  function Left(trace: seq<ContextEvent>): nat {
    if |trace| == 0 then 0 else Left(trace[..|trace| - 1]) + (if trace[|trace| - 1].Leave? then 1 else 0)
  }

  /** The context discipline of instantiation: either no context was entered,
      or one was entered first and left last, exactly once, with what entering
      returned, and linking happened once in between. */
  predicate ContextReleased(trace: seq<ContextEvent>, engine: Engine) {
    || trace == []
    || (&& Entered(trace) == 1 && Linked(trace) == 1 && Left(trace) == 1
        && trace[0] == Enter(engine.innerContext)
        && trace[|trace| - 1] == Leave(engine.innerContext, engine.previousContext)
        && exists k :: 0 < k < |trace| - 1 && trace[k] == Link(engine.innerContext))
  }

  /** `instantiate(module, importObject)`: links inside a fresh inner context
      that is left in a `finally`, so on success and on failure alike. */
  function InstantiateModule(m: Module, importObject: Value, engine: Engine)
    : (r: (Result<Instance, Exception>, seq<ContextEvent>))
    ensures r.0 == engine.link(engine.innerContext, m, importObject)
    ensures r.1 != [] && ContextReleased(r.1, engine)
  {
    var context := engine.innerContext;
    var previous := engine.previousContext;
    var entered := [Enter(context)];
    var outcome := engine.link(context, m, importObject);
    var linked := entered + [Link(context)];
    var trace := linked + [Leave(context, previous)];
    assert trace[..2] == linked && linked[..1] == entered && entered[..0] == [];
    assert Left(entered) == Left(entered[..0]) == 0;
    assert Entered(entered) == 1 && Linked(entered) == 0;
    assert Entered(linked) == 1 && Linked(linked) == 1 && Left(linked) == 0;
    assert trace[1] == Link(context);
    (outcome, trace)
  }

  /** What `instantiate(args)` gives back: an instance for a module argument,
      the module with its instance for a byte source. */
  datatype Instantiated =
    | InstanceOnly(instance: Instance)
    | InstantiatedSource(compiled: Module, instance: Instance)

  /** `instantiate(args)`: a module is linked directly; anything else is turned
      into bytes, compiled, then linked. */
  method InstantiateArgs(args: seq<Value>, interop: Interop, engine: Engine)
    returns (r: Result<Instantiated, Exception>, trace: seq<ContextEvent>)
    ensures ContextReleased(trace, engine)
    ensures |args| < 2 ==> r == Failure(JsApiException(TypeError, InsufficientArgumentsMessage)) && trace == []
    ensures |args| >= 2 && args[0].ModuleRef? ==>
      && trace != []
      && (r.Success? <==> engine.link(engine.innerContext, args[0].compiled, args[1]).Success?)
      && (r.Success? ==> r.value == InstanceOnly(engine.link(engine.innerContext, args[0].compiled, args[1]).value))
      && (r.Failure? ==> r.error == engine.link(engine.innerContext, args[0].compiled, args[1]).error)
    ensures r.Success? ==> trace != []
    ensures |args| >= 2 && !args[0].ModuleRef? && !Convertible(args[0], interop) ==>
      r == Failure(BytesFailure(args[0], interop)) && trace == []
    ensures (&& |args| >= 2 && !args[0].ModuleRef? && Convertible(args[0], interop)
             && engine.compile(SourceBytes(args[0], interop)).Failure?) ==>
      r == Failure(engine.compile(SourceBytes(args[0], interop)).error) && trace == []
    ensures (&& |args| >= 2 && !args[0].ModuleRef? && Convertible(args[0], interop)
             && engine.compile(SourceBytes(args[0], interop)).Success?) ==>
      var compiled := engine.compile(SourceBytes(args[0], interop)).value;
      && trace != []
      && (r.Success? <==> engine.link(engine.innerContext, compiled, args[1]).Success?)
      && (r.Success? ==> r.value == InstantiatedSource(compiled, engine.link(engine.innerContext, compiled, args[1]).value))
      && (r.Failure? ==> r.error == engine.link(engine.innerContext, compiled, args[1]).error)
  {
    trace := [];
    if |args| < 2 {
      return Failure(JsApiException(TypeError, InsufficientArgumentsMessage)), trace;
    }
    var source := args[0];
    var importObject := args[1];
    if source.ModuleRef? {
      var (outcome, events) := InstantiateModule(source.compiled, importObject, engine);
      trace := events;
      if outcome.Success? {
        r := Success(InstanceOnly(outcome.value));
      } else {
        r := Failure(outcome.error);
      }
      return;
    }
    var bytes := ToBytes(source, interop);
    if bytes.Failure? {
      return Failure(bytes.error), trace;
    }
    var compiled := engine.compile(bytes.value);
    if compiled.Failure? {
      return Failure(compiled.error), trace;
    }
    var (outcome, events) := InstantiateModule(compiled.value, importObject, engine);
    trace := events;
    if outcome.Success? {
      r := Success(InstantiatedSource(compiled.value, outcome.value));
    } else {
      r := Failure(outcome.error);
    }
  }
}

=== FILE: coercion.dfy ===
/** Normalisation of the facade's host arguments: argument counts, byte
    sources and size limits. */
module Coercion {
  import opened Wrappers
  import opened JavaInt
  import opened Errors
  import opened HostValues

  const InsufficientArgumentsMessage: string := "Insufficient number of arguments"
  const CannotConvertToBytesMessage: string := "Cannot convert to bytes"
  const InitialRequiredMessage: string := "Initial argument is required"
  const InitialNotIntMessage: string := "Initial argument must be convertible to int"
  const MaximumNotIntMessage: string := "Maximum argument must be convertible to int"

  const CannotConvertToBytes: Exception := JsApiException(TypeError, CannotConvertToBytesMessage)

  /** What the Java runtime throws for `new byte[n]` with a negative `n`. */
  const NegativeArraySize: Exception := OtherException("NegativeArraySizeException")

  /** `checkArgumentCount(args, requiredCount)`. */
  function CheckArgumentCount(args: seq<Value>, requiredCount: nat): (r: Outcome<Exception>)
    ensures r.Pass? <==> |args| >= requiredCount
    ensures r.Fail? ==> r.error == JsApiException(TypeError, InsufficientArgumentsMessage)
  {
    if |args| < requiredCount then Fail(JsApiException(TypeError, InsufficientArgumentsMessage))
    else Pass
  }

  /** The byte that element `i` of an array-like source stands for: a `Number`
      by its `byteValue()`, anything else by the interop `asByte` message. */
  function ElementByte(source: Value, i: Int64, interop: Interop): Option<Int8> {
    match interop.readArrayElement(source, i)
    case None => None
    case Some(Number(n)) => Some(n.ByteValue())
    case Some(element) => interop.asByte(element)
  }

  /** The array size a host value reports, when it is array-like at all. */
  function ArraySize(source: Value, interop: Interop): (r: Option<Int64>)
    ensures !interop.hasArrayElements(source) ==> r.None?
    ensures interop.hasArrayElements(source) ==> r == interop.getArraySize(source)
  {
    if interop.hasArrayElements(source) then interop.getArraySize(source) else None
  }

  /** The reported size equals its own `(int)` cast: it lies in the `int`
      range, negative sizes of at least -2^31 included. */
  function SizeFitsInt(size: Int64): (b: bool)
    ensures b <==> -TwoTo31 <= size < TwoTo31
  {
    size == LongToInt(size)
  }

  /** Every element of the first `n` converts to a byte. */
  predicate ElementsConvert(source: Value, n: nat, interop: Interop)
    requires n <= TwoTo63
  {
    forall i :: 0 <= i < n ==> ElementByte(source, i, interop).Some?
  }

  /** The conditions under which `toBytes` returns: an array-like value whose
      reported size is a non-negative `int` and whose every element converts. */
  predicate Convertible(source: Value, interop: Interop) {
    && ArraySize(source, interop).Some?
    && SizeFitsInt(ArraySize(source, interop).value)
    && ArraySize(source, interop).value >= 0
    && ElementsConvert(source, ArraySize(source, interop).value, interop)
  }

  /** The bytes a convertible source stands for, element by element. */
  function SourceBytes(source: Value, interop: Interop): (bytes: seq<Int8>)
    requires Convertible(source, interop)
    ensures |bytes| == ArraySize(source, interop).value
    ensures forall i :: 0 <= i < |bytes| ==> Some(bytes[i]) == ElementByte(source, i, interop)
  {
    var n := ArraySize(source, interop).value;
    seq(n, i requires 0 <= i < n && ElementByte(source, i, interop).Some? => ElementByte(source, i, interop).value)
  }

  /** The failure `toBytes` raises for a source that is not convertible. */
  function BytesFailure(source: Value, interop: Interop): Exception {
    if && ArraySize(source, interop).Some?
       && SizeFitsInt(ArraySize(source, interop).value)
       && ArraySize(source, interop).value < 0
    then NegativeArraySize
    else CannotConvertToBytes
  }

  /** `toBytes(source)`: the bytes of an array-like host value whose size is an
      `int`, element by element. */
  method ToBytes(source: Value, interop: Interop) returns (r: Result<seq<Int8>, Exception>)
    ensures r.Success? <==> Convertible(source, interop)
    ensures r.Success? ==> r.value == SourceBytes(source, interop)
    ensures r.Failure? ==> r.error == BytesFailure(source, interop)
  {
    if !interop.hasArrayElements(source) {
      return Failure(CannotConvertToBytes);
    }
    var reported := interop.getArraySize(source);
    if reported.None? {
      return Failure(CannotConvertToBytes);
    }
    var size := reported.value;
    if size != LongToInt(size) {
      return Failure(CannotConvertToBytes);
    }
    if size < 0 {
      return Failure(NegativeArraySize);
    }
    var bytes: seq<Int8> := [];
    var i := 0;
    while i < size
      invariant 0 <= i <= size
      invariant |bytes| == i
      invariant forall k :: 0 <= k < i ==> Some(bytes[k]) == ElementByte(source, k, interop)
    {
      var b := ElementByte(source, i, interop);
      if b.None? {
        return Failure(CannotConvertToBytes);
      }
      bytes := bytes + [b.value];
      i := i + 1;
    }
    assert bytes == SourceBytes(source, interop);
    return Success(bytes);
  }

  /** An (initial, maximum) pair; an absent maximum is -1. */
  datatype SizeLimits = SizeLimits(initial: Int32, maximum: Int32)

  /** `toSizeLimits(args)`. */
  function ToSizeLimits(args: seq<Value>, interop: Interop): (r: Result<SizeLimits, Exception>)
    ensures |args| == 0 ==> r == Failure(JsApiException(TypeError, InitialRequiredMessage))
    ensures |args| > 0 && interop.asInt(args[0]).None? ==>
      r == Failure(JsApiException(TypeError, InitialNotIntMessage))
    ensures |args| > 1 && interop.asInt(args[0]).Some? && interop.asInt(args[1]).None? ==>
      r == Failure(JsApiException(TypeError, MaximumNotIntMessage))
    ensures r.Success? <==>
      |args| > 0 && interop.asInt(args[0]).Some? && (|args| == 1 || interop.asInt(args[1]).Some?)
    ensures r.Success? ==> r.value.initial == interop.asInt(args[0]).value
    ensures r.Success? && |args| == 1 ==> r.value.maximum == -1
    ensures r.Success? && |args| > 1 ==> r.value.maximum == interop.asInt(args[1]).value
  {
    if |args| == 0 then
      Failure(JsApiException(TypeError, InitialRequiredMessage))
    else
      match interop.asInt(args[0])
      case None => Failure(JsApiException(TypeError, InitialNotIntMessage))
      case Some(initial) =>
        if |args| == 1 then Success(SizeLimits(initial, -1))
        else
          match interop.asInt(args[1])
          case None => Failure(JsApiException(TypeError, MaximumNotIntMessage))
          case Some(maximum) => Success(SizeLimits(initial, maximum))
  }

  /** An absent maximum reads, unsigned, as 2^32 - 1: it is never below the
      initial size. */
  lemma AbsentMaximumIsUnbounded(args: seq<Value>, interop: Interop)
    requires |args| == 1 && ToSizeLimits(args, interop).Success?
    ensures ToSizeLimits(args, interop).value.maximum == -1
    ensures Unsigned(ToSizeLimits(args, interop).value.maximum) == TwoTo32 - 1
    ensures Unsigned(ToSizeLimits(args, interop).value.initial) <= Unsigned(ToSizeLimits(args, interop).value.maximum)
  {
  }
}

=== FILE: decimal.dfy ===
/** Decimal text of integers as `StringBuilder.append(int)` writes it
    (`Integer.toString`), and its inverse. */
module Decimal {
  import opened Wrappers

  predicate IsDigit(c: char) {
    '0' <= c <= '9'
  }

  predicate AllDigits(s: string) {
    forall i :: 0 <= i < |s| ==> IsDigit(s[i])
  }

  function DigitChar(d: nat): (c: char)
    requires d < 10
    ensures IsDigit(c)
  {
    (('0' as int) + d) as char
  }

  function DigitValue(c: char): (d: nat)
    requires IsDigit(c)
    ensures d < 10
  {
    (c as int) - ('0' as int)
  }

  /** Decimal digits of `n`, most significant first, without leading zeros. */
  function NatToDecimal(n: nat): (s: string)
    ensures |s| > 0
    ensures AllDigits(s)
    ensures s[0] == '0' ==> n == 0
    decreases n
  {
    if n < 10 then [DigitChar(n)] else NatToDecimal(n / 10) + [DigitChar(n % 10)]
  }

  /** `Integer.toString(n)`: a minus sign for negative values, then the digits of |n|. */
  function IntToDecimal(n: int): (s: string)
    ensures |s| > 0
    ensures s[0] == '-' <==> n < 0
    ensures '(' !in s && ')' !in s
  {
    if n < 0 then "-" + NatToDecimal(-n) else NatToDecimal(n)
  }

  /** The number a string of decimal digits denotes. */
  function DigitsValue(s: string): nat
    requires AllDigits(s)
  {
    if |s| == 0 then 0 else DigitsValue(s[..|s| - 1]) * 10 + DigitValue(s[|s| - 1])
  }

  /** Reads an optional minus sign followed by one or more digits. */
  function ParseDecimal(s: string): (r: Option<int>)
    ensures r.Some? ==> |s| > 0
  {
    if |s| > 0 && s[0] == '-' then
      var t := s[1..];
      if |t| > 0 && AllDigits(t) then Some(0 - DigitsValue(t) as int) else None
    else if |s| > 0 && AllDigits(s) then Some(DigitsValue(s))
    else None
  }

  lemma {:induction false} NatToDecimalValue(n: nat)
    ensures DigitsValue(NatToDecimal(n)) == n
    decreases n
  {
    var s := NatToDecimal(n);
    if n >= 10 {
      NatToDecimalValue(n / 10);
      assert s[..|s| - 1] == NatToDecimal(n / 10);
    }
  }

  /** Reading back the text of any integer gives that integer. */
  lemma IntToDecimalRoundTrip(n: int)
    ensures ParseDecimal(IntToDecimal(n)) == Some(n)
  {
    if n < 0 {
      NatToDecimalValue(-n);
      assert IntToDecimal(n)[1..] == NatToDecimal(-n);
    } else {
      NatToDecimalValue(n);
    }
  }

  /** Distinct integers have distinct text. */
  lemma IntToDecimalInjective(m: int, n: int)
    ensures IntToDecimal(m) == IntToDecimal(n) <==> m == n
  {
    IntToDecimalRoundTrip(m);
    IntToDecimalRoundTrip(n);
  }
}

=== FILE: errors.dfy ===
/** The failures that cross the API boundary. */
module Errors {

  /** The classification of a `WasmJsApiException`, after the error taxonomy of
      the WebAssembly JavaScript Interface. */
  datatype ErrorKind = TypeError | RangeError | LinkError

  /** A thrown exception, as the facade lets it escape or catches it. */
  datatype Exception =
    | JsApiException(kind: ErrorKind, message: string)
      /** A `WasmException` raised by the engine, e.g. for a malformed module. */
    | WasmException(message: string)
      /** Any other exception from an engine component outside this model. */
    | OtherException(message: string)
}

=== FILE: functions.dfy ===
/** Wasm function signatures and their canonical text, `functionTypeToString`. */
module Functions {
  import opened Wrappers
  import opened JavaInt
  import opened Decimal

  /** The four scalar value types (the `ValueType` enum). */
  datatype ValueType = I32 | I64 | F32 | F64

  /** Type codes of the Wasm binary format, as `WasmType` holds them in a Java `byte`. */
  const I32Type: Int8 := 0x7F
  const I64Type: Int8 := 0x7E
  const F32Type: Int8 := 0x7D
  const F64Type: Int8 := 0x7C
  /** The code of an absent result. */
  const VoidType: Int8 := 0x40

  function ToByteValue(t: ValueType): Int8 {
    match t
    case I32 => I32Type
    case I64 => I64Type
    case F32 => F32Type
    case F64 => F64Type
  }

  /** `ValueType.fromByteValue`: `None` for a byte that names no value type. */
  function FromByteValue(b: Int8): (r: Option<ValueType>)
    ensures r.Some? ==> ToByteValue(r.value) == b
  {
    if b == I32Type then Some(I32)
    else if b == I64Type then Some(I64)
    else if b == F32Type then Some(F32)
    else if b == F64Type then Some(F64)
    else None
  }

  lemma ByteValueRoundTrip(t: ValueType, b: Int8)
    ensures FromByteValue(b) == Some(t) <==> ToByteValue(t) == b
  {
  }

  /** The text of a value type, the name of its enum constant. */
  function TypeName(t: ValueType): (s: string)
    ensures |s| == 3
    ensures s[0] == (if t == I32 || t == I64 then 'i' else 'f')
    ensures s[1] == (if t == I32 || t == F32 then '3' else '6')
    ensures s[2] == (if t == I32 || t == F32 then '2' else '4')
  {
    match t
    case I32 => "i32"
    case I64 => "i64"
    case F32 => "f32"
    case F64 => "f64"
  }

  /** The inverse of `TypeName`. */
  function ParseTypeName(s: string): (r: Option<ValueType>)
    ensures r.Some? ==> TypeName(r.value) == s
  {
    if s == "i32" then Some(I32)
    else if s == "i64" then Some(I64)
    else if s == "f32" then Some(F32)
    else if s == "f64" then Some(F64)
    else None
  }

  lemma TypeNameRoundTrip(t: ValueType)
    ensures ParseTypeName(TypeName(t)) == Some(t)
  {
  }

  /** A function of a module: its index and its type, with argument and result
      types as the engine stores them (binary codes). */
  datatype WasmFunction = WasmFunction(index: Int32, argumentTypes: seq<Int8>, returnType: Int8)

  /** A function value that a host can hold and put into a table
      (`WasmFunctionInstance`); `id` stands for its object identity. */
  datatype FunctionInstance = FunctionInstance(fn: WasmFunction, id: nat)

  predicate IsValueType(b: Int8) {
    FromByteValue(b).Some?
  }

  /** The engine only builds functions of validated modules: every argument
      code is a value type and the result code is a value type or void. */
  predicate ValidSignature(f: WasmFunction) {
    && (forall i :: 0 <= i < |f.argumentTypes| ==> IsValueType(f.argumentTypes[i]))
    && (f.returnType == VoidType || IsValueType(f.returnType))
  }

  function Decode(b: Int8): ValueType
    requires IsValueType(b)
  {
    FromByteValue(b).value
  }

  function DecodeAll(bs: seq<Int8>): (ts: seq<ValueType>)
    requires forall i :: 0 <= i < |bs| ==> IsValueType(bs[i])
    ensures |ts| == |bs|
    ensures forall i :: 0 <= i < |bs| ==> ToByteValue(ts[i]) == bs[i]
  {
    if |bs| == 0 then [] else DecodeAll(bs[..|bs| - 1]) + [Decode(bs[|bs| - 1])]
  }

  /** The declared result of a valid function: `None` for void. */
  function DecodeReturn(f: WasmFunction): Option<ValueType>
    requires ValidSignature(f)
  {
    if f.returnType == VoidType then None else Some(Decode(f.returnType))
  }

  /** The names of the given argument types, in declaration order. */
  function ArgumentNames(bs: seq<Int8>): (s: string)
    requires forall i :: 0 <= i < |bs| ==> IsValueType(bs[i])
    ensures |s| == 3 * |bs|
  {
    if |bs| == 0 then "" else ArgumentNames(bs[..|bs| - 1]) + TypeName(Decode(bs[|bs| - 1]))
  }

  /** The canonical signature text: decimal index, the argument names in
      parentheses, then the result name unless the result is void. */
  function SignatureText(f: WasmFunction): string
    requires ValidSignature(f)
  {
    IntToDecimal(f.index) + "(" + ArgumentNames(f.argumentTypes) + ")" + ResultText(f)
  }

  /** The result name, or nothing for a void result. */
  function ResultText(f: WasmFunction): string
    requires ValidSignature(f)
  {
    if f.returnType == VoidType then "" else TypeName(Decode(f.returnType))
  }

  /** `functionTypeToString`: builds the text with a string builder, one
      argument at a time. */
  method FunctionTypeToString(f: WasmFunction) returns (s: string)
    requires ValidSignature(f)
    ensures s == SignatureText(f)
  {
    s := IntToDecimal(f.index);
    s := s + "(";
    var prefix := s;
    var argumentCount := |f.argumentTypes|;
    var i := 0;
    while i < argumentCount
      invariant 0 <= i <= argumentCount
      invariant s == prefix + ArgumentNames(f.argumentTypes[..i])
    {
      assert f.argumentTypes[..i + 1][..i] == f.argumentTypes[..i];
      s := s + TypeName(Decode(f.argumentTypes[i]));
      i := i + 1;
    }
    assert f.argumentTypes[..argumentCount] == f.argumentTypes;
    s := s + ")";
    if f.returnType != VoidType {
      s := s + TypeName(Decode(f.returnType));
    }
  }

  /** What a signature text says: index, argument types, result type. */
  datatype Signature = Signature(index: int, arguments: seq<ValueType>, result: Option<ValueType>)

  /** The position of the first occurrence of `c` in `s`. */
  function FirstIndexOf(s: string, c: char): (r: Option<nat>)
    ensures r.Some? ==> r.value < |s| && s[r.value] == c && c !in s[..r.value]
    ensures r.None? ==> c !in s
  {
    if |s| == 0 then None
    else if s[0] == c then Some(0)
    else match FirstIndexOf(s[1..], c)
      case None => None
      case Some(k) => assert s[..k + 1] == [s[0]] + s[1..][..k]; Some(k + 1)
  }

  /** Reads a run of three-letter type names, front to back. */
  function ParseTypeNames(s: string): (r: Option<seq<ValueType>>)
    decreases |s|
  {
    if |s| == 0 then Some([])
    else if |s| < 3 then None
    else match (ParseTypeNames(s[..|s| - 3]), ParseTypeName(s[|s| - 3..]))
      case (Some(ts), Some(t)) => Some(ts + [t])
      case _ => None
  }

  /** Reads the text after the closing parenthesis: empty for void, else one type name. */
  function ParseResultText(t: string): Option<Option<ValueType>> {
    if t == "" then Some(None)
    else match ParseTypeName(t)
      case Some(v) => Some(Some(v))
      case None => None
  }

  /** Reads the text after the opening parenthesis. */
  function ParseAfterOpen(rest: string): Option<(seq<ValueType>, Option<ValueType>)> {
    match FirstIndexOf(rest, ')')
    case None => None
    case Some(close) =>
      match (ParseTypeNames(rest[..close]), ParseResultText(rest[close + 1..]))
      case (Some(arguments), Some(result)) => Some((arguments, result))
      case _ => None
  }

  /** The inverse of `SignatureText`. */
  function ParseSignature(s: string): Option<Signature> {
    match FirstIndexOf(s, '(')
    case None => None
    case Some(open) =>
      match (ParseDecimal(s[..open]), ParseAfterOpen(s[open + 1..]))
      case (Some(index), Some(body)) => Some(Signature(index, body.0, body.1))
      case _ => None
  }

  lemma FirstIndexOfAfter(a: string, c: char, b: string)
    requires c !in a
    ensures FirstIndexOf(a + [c] + b, c) == Some(|a|)
  {
    var s := a + [c] + b;
    assert s[|a|] == c;
    assert s[..|a|] == a;
  }

  lemma NoParenInTypeName(t: ValueType)
    ensures '(' !in TypeName(t) && ')' !in TypeName(t)
  {
  }

  lemma {:induction false} NoParenInArgumentNames(bs: seq<Int8>)
    requires forall i :: 0 <= i < |bs| ==> IsValueType(bs[i])
    ensures ')' !in ArgumentNames(bs)
  {
    if |bs| > 0 {
      NoParenInArgumentNames(bs[..|bs| - 1]);
      NoParenInTypeName(Decode(bs[|bs| - 1]));
    }
  }

  lemma {:induction false} ArgumentNamesRoundTrip(bs: seq<Int8>)
    requires forall i :: 0 <= i < |bs| ==> IsValueType(bs[i])
    ensures ParseTypeNames(ArgumentNames(bs)) == Some(DecodeAll(bs))
  {
    if |bs| > 0 {
      var init := bs[..|bs| - 1];
      var s := ArgumentNames(bs);
      ArgumentNamesRoundTrip(init);
      assert s[..|s| - 3] == ArgumentNames(init);
      assert s[|s| - 3..] == TypeName(Decode(bs[|bs| - 1]));
      TypeNameRoundTrip(Decode(bs[|bs| - 1]));
    }
  }

  lemma AfterOpenRoundTrip(f: WasmFunction)
    requires ValidSignature(f)
    ensures ParseAfterOpen(ArgumentNames(f.argumentTypes) + ")" + ResultText(f))
         == Some((DecodeAll(f.argumentTypes), DecodeReturn(f)))
  {
    var names := ArgumentNames(f.argumentTypes);
    var rest := names + ")" + ResultText(f);
    NoParenInArgumentNames(f.argumentTypes);
    FirstIndexOfAfter(names, ')', ResultText(f));
    assert FirstIndexOf(rest, ')') == Some(|names|);
    assert rest[..|names|] == names;
    assert rest[|names| + 1..] == ResultText(f);
    ArgumentNamesRoundTrip(f.argumentTypes);
    if f.returnType != VoidType {
      TypeNameRoundTrip(Decode(f.returnType));
    }
    assert ParseResultText(ResultText(f)) == Some(DecodeReturn(f));
  }

  /** Reading back the text of a function gives its index, its argument types
      in order and its result type. */
  lemma SignatureRoundTrip(f: WasmFunction)
    requires ValidSignature(f)
    ensures ParseSignature(SignatureText(f))
         == Some(Signature(f.index, DecodeAll(f.argumentTypes), DecodeReturn(f)))
  {
    var indexText := IntToDecimal(f.index);
    var rest := ArgumentNames(f.argumentTypes) + ")" + ResultText(f);
    var s := SignatureText(f);
    assert s == indexText + "(" + rest;
    FirstIndexOfAfter(indexText, '(', rest);
    assert FirstIndexOf(s, '(') == Some(|indexText|);
    assert s[..|indexText|] == indexText;
    assert s[|indexText| + 1..] == rest;
    IntToDecimalRoundTrip(f.index);
    assert ParseDecimal(s[..|indexText|]) == Some(f.index as int);
    AfterOpenRoundTrip(f);
    assert ParseAfterOpen(s[|indexText| + 1..]) == Some((DecodeAll(f.argumentTypes), DecodeReturn(f)));
  }

  lemma {:induction false} DecodeAllInjective(xs: seq<Int8>, ys: seq<Int8>)
    requires forall i :: 0 <= i < |xs| ==> IsValueType(xs[i])
    requires forall i :: 0 <= i < |ys| ==> IsValueType(ys[i])
    requires DecodeAll(xs) == DecodeAll(ys)
    ensures xs == ys
  {
    var ts := DecodeAll(xs);
    assert forall i :: 0 <= i < |xs| ==> xs[i] == ToByteValue(ts[i]) == ys[i];
  }

  /** Two functions with the same signature text are the same function. */
  lemma SignatureTextInjective(f: WasmFunction, g: WasmFunction)
    requires ValidSignature(f) && ValidSignature(g)
    ensures SignatureText(f) == SignatureText(g) <==> f == g
  {
    if SignatureText(f) == SignatureText(g) {
      SignatureRoundTrip(f);
      SignatureRoundTrip(g);
      DecodeAllInjective(f.argumentTypes, g.argumentTypes);
      if f.returnType != VoidType {
        assert ToByteValue(Decode(f.returnType)) == f.returnType;
      }
    }
  }

  /** The function at index 7 taking two i32 and returning f64. */
  lemma SignatureTextExample()
    ensures SignatureText(WasmFunction(7, [I32Type, I32Type], F64Type)) == "7(i32i32)f64"
  {
    var f := WasmFunction(7, [I32Type, I32Type], F64Type);
    assert f.argumentTypes[..1] == [I32Type];
    assert f.argumentTypes[..0] == [];
    assert DigitChar(7) == '7';
    assert NatToDecimal(7) == "7";
    assert ArgumentNames(f.argumentTypes) == "i32i32";
  }
}

=== FILE: globals.dfy ===
/** `createGlobal`: the `Global` constructor of the facade. */
module Globals {
  import opened Wrappers
  import opened JavaInt
  import opened Errors
  import opened HostValues
  import opened Coercion

  const ValueTypeNotStringMessage: string := "First argument (value type) must be convertible to String"
  const MutableNotBooleanMessage: string := "First argument (mutable) must be convertible to boolean"
  const InvalidValueTypeMessage: string := "Invalid value type"
  const CannotConvertValueMessage: string := "Cannot convert value to the specified value type"

  /** The scalar a global holds; floating-point values are kept as their bit patterns. */
  datatype GlobalValue =
    | I32Value(i: Int32)
    | I64Value(l: Int64)
    | F32Bits(f: Int32)
    | F64Bits(d: Int64)

  /** A global cell: its value-type tag, whether it may change, and its value. */
  datatype Global = Global(valueType: string, mutable: bool, value: GlobalValue)

  predicate IsValueTypeTag(tag: string) {
    tag == "i32" || tag == "i64" || tag == "f32" || tag == "f64"
  }

  /** The tag that names a value's kind. */
  function TagOf(v: GlobalValue): string {
    match v
    case I32Value(_) => "i32"
    case I64Value(_) => "i64"
    case F32Bits(_) => "f32"
    case F64Bits(_) => "f64"
  }

  /** Converts `value` to the kind the tag names, by the matching interop message. */
  function CoerceValue(tag: string, value: Value, interop: Interop): (r: Option<GlobalValue>)
    requires IsValueTypeTag(tag)
    ensures r.Some? ==> TagOf(r.value) == tag
    ensures tag == "i32" ==>
      (r.Some? <==> interop.asInt(value).Some?) && (r.Some? ==> r.value == I32Value(interop.asInt(value).value))
    ensures tag == "i64" ==>
      (r.Some? <==> interop.asLong(value).Some?) && (r.Some? ==> r.value == I64Value(interop.asLong(value).value))
    ensures tag == "f32" ==>
      (r.Some? <==> interop.asFloat(value).Some?) && (r.Some? ==> r.value == F32Bits(interop.asFloat(value).value))
    ensures tag == "f64" ==>
      (r.Some? <==> interop.asDouble(value).Some?) && (r.Some? ==> r.value == F64Bits(interop.asDouble(value).value))
  {
    if tag == "i32" then
      match interop.asInt(value) case Some(i) => Some(I32Value(i)) case None => None
    else if tag == "i64" then
      match interop.asLong(value) case Some(l) => Some(I64Value(l)) case None => None
    else if tag == "f32" then
      match interop.asFloat(value) case Some(f) => Some(F32Bits(f)) case None => None
    else
      match interop.asDouble(value) case Some(d) => Some(F64Bits(d)) case None => None
  }

  /** `createGlobal(args)`: value type, mutability, value. The tag is checked
      before the value is converted. */
  function CreateGlobal(args: seq<Value>, interop: Interop): (r: Result<Global, Exception>)
    ensures |args| < 3 ==> r == Failure(JsApiException(TypeError, InsufficientArgumentsMessage))
    ensures |args| >= 3 && interop.asString(args[0]).None? ==>
      r == Failure(JsApiException(TypeError, ValueTypeNotStringMessage))
    ensures |args| >= 3 && interop.asString(args[0]).Some? && interop.asBoolean(args[1]).None? ==>
      r == Failure(JsApiException(TypeError, MutableNotBooleanMessage))
    ensures (&& |args| >= 3 && interop.asString(args[0]).Some? && interop.asBoolean(args[1]).Some?
             && !IsValueTypeTag(interop.asString(args[0]).value)) ==>
      r == Failure(JsApiException(TypeError, InvalidValueTypeMessage))
    ensures r.Failure? ==> r.error.JsApiException? && r.error.kind == TypeError
    ensures r.Success? ==>
      && |args| >= 3
      && Some(r.value.valueType) == interop.asString(args[0])
      && Some(r.value.mutable) == interop.asBoolean(args[1])
      && IsValueTypeTag(r.value.valueType)
      && TagOf(r.value.value) == r.value.valueType
      && Some(r.value.value) == CoerceValue(r.value.valueType, args[2], interop)
  {
    match CheckArgumentCount(args, 3)
    case Fail(e) => Failure(e)
    case Pass =>
      match interop.asString(args[0])
      case None => Failure(JsApiException(TypeError, ValueTypeNotStringMessage))
      case Some(valueType) =>
        match interop.asBoolean(args[1])
        case None => Failure(JsApiException(TypeError, MutableNotBooleanMessage))
        case Some(mutable) =>
          if !IsValueTypeTag(valueType) then
            Failure(JsApiException(TypeError, InvalidValueTypeMessage))
          else
            match CoerceValue(valueType, args[2], interop)
            case None => Failure(JsApiException(TypeError, CannotConvertValueMessage))
            case Some(v) => Success(Global(valueType, mutable, v))
  }

  /** With a recognised tag, creation fails only when the value does not
      convert, and then with the conversion message. */
  lemma CreateGlobalConversion(args: seq<Value>, interop: Interop)
    requires |args| >= 3 && interop.asBoolean(args[1]).Some?
    requires interop.asString(args[0]).Some? && IsValueTypeTag(interop.asString(args[0]).value)
    ensures CreateGlobal(args, interop).Success?
        <==> CoerceValue(interop.asString(args[0]).value, args[2], interop).Some?
    ensures CreateGlobal(args, interop).Failure? ==>
      CreateGlobal(args, interop).error == JsApiException(TypeError, CannotConvertValueMessage)
  {
  }
}

=== FILE: host_values.dfy ===
/** Host values as the API facade receives them in its `Object[] args`, and the
    interop messages it sends them. */
module HostValues {
  import opened Wrappers
  import opened JavaInt
  import opened Functions
  import opened Tables

  /** The `java.lang.Number` boxes. `OtherNumber` is every `Number` that is not
      one of the four integral boxes (`Float`, `Double`, `BigInteger`,
      `BigDecimal`, `AtomicInteger`, ...): it carries the byte its own
      `byteValue()` gives, since those classes are outside this model. */
  datatype JavaNumber =
    | JavaByte(b: Int8)
    | JavaShort(s: Int16)
    | JavaInteger(i: Int32)
    | JavaLong(l: Int64)
    | OtherNumber(otherByteValue: Int8)
  {
    /** `Number.byteValue()`: for the integral boxes the low 8 bits, read as a
        signed byte. */
    function ByteValue(): (b: Int8)
      ensures !OtherNumber? ==> b % 256 == Integral() % 256
      ensures OtherNumber? ==> b == otherByteValue
    {
      if OtherNumber? then otherByteValue else ToByte(Integral())
    }

    function Integral(): int
      requires !OtherNumber?
    {
      match this
      case JavaByte(b) => b
      case JavaShort(s) => s
      case JavaInteger(i) => i
      case JavaLong(l) => l
    }
  }

  /** A compiled module; compilation itself is the engine's. */
  datatype Module = Module(id: nat, source: seq<Int8>)

  /** A linked instance; linking itself is the engine's. */
  datatype Instance = Instance(id: nat, compiled: Module)

  /** A host value, by the Java class the facade tests it against. */
  datatype Value =
    | Number(number: JavaNumber)
    | FunctionRef(instance: FunctionInstance)
    | TableRef(table: WasmTable)
    | ModuleRef(compiled: Module)
      /** Any other host object; it is known only through interop. */
    | HostObject(id: nat)

  /** Values the engine can hand out: a table keeps its bound and a function
      comes from a validated module. */
  predicate WellFormed(v: Value) {
    && (v.TableRef? ==> v.table.Valid())
    && (v.FunctionRef? ==> ValidSignature(v.instance.fn))
  }

  /** The interop library's answers for every host value. `None` stands for an
      `UnsupportedMessageException` (or, for element reads, any
      `InteropException`). Floating-point answers are raw bit patterns. */
  datatype Interop = Interop(
    hasArrayElements: Value -> bool,
    getArraySize: Value -> Option<Int64>,
    readArrayElement: (Value, Int64) -> Option<Value>,
    asByte: Value -> Option<Int8>,
    asInt: Value -> Option<Int32>,
    asLong: Value -> Option<Int64>,
    asFloat: Value -> Option<Int32>,
    asDouble: Value -> Option<Int64>,
    asString: Value -> Option<string>,
    asBoolean: Value -> Option<bool>,
    isNull: Value -> bool)
}

=== FILE: java_int.dfy ===
/** Java primitive integers as bounded mathematical integers.
    An `Int32` is the value a Java program reads from an `int`; the unsigned
    reading that `Integer.compareUnsigned` uses is `Unsigned`. */
module JavaInt {

  const TwoTo31: int := 0x8000_0000
  const TwoTo32: int := 0x1_0000_0000
  const TwoTo63: int := 0x8000_0000_0000_0000

  type Int8 = b: int | -128 <= b < 128
  type Int16 = s: int | -0x8000 <= s < 0x8000
  type Int32 = i: int | -0x8000_0000 <= i < 0x8000_0000
  type Int64 = l: int | -0x8000_0000_0000_0000 <= l < 0x8000_0000_0000_0000

  /** The unsigned reading of an `int`'s 32-bit pattern. */
  function Unsigned(x: Int32): (u: nat)
    ensures u < TwoTo32
    ensures u % TwoTo32 == x % TwoTo32
    ensures x >= 0 ==> u == x
  {
    if x >= 0 then x else x + TwoTo32
  }

  /** The `int` whose pattern has the given unsigned reading. */
  function FromUnsigned(u: nat): (x: Int32)
    requires u < TwoTo32
    ensures Unsigned(x) == u
  {
    if u < TwoTo31 then u else u - TwoTo32
  }

  lemma UnsignedInjective(x: Int32, y: Int32)
    ensures Unsigned(x) == Unsigned(y) <==> x == y
  {
  }

  /** `Integer.compareUnsigned(a, b)`: negative, zero or positive. */
  function CompareUnsigned(a: Int32, b: Int32): (r: int)
    ensures r > 0 <==> Unsigned(a) > Unsigned(b)
    ensures r == 0 <==> a == b
    ensures r < 0 <==> Unsigned(a) < Unsigned(b)
  {
    var ua := Unsigned(a);
    var ub := Unsigned(b);
    if ua < ub then -1 else if ua == ub then 0 else 1
  }

  /** `WasmMath.minUnsigned(a, b)`: the smaller of the two as unsigned values. */
  function MinUnsigned(a: Int32, b: Int32): (r: Int32)
    ensures Unsigned(r) <= Unsigned(a) && Unsigned(r) <= Unsigned(b)
    ensures r == a || r == b
  {
    if CompareUnsigned(a, b) <= 0 then a else b
  }

  /** The Java cast `(int) l` of a `long`. */
  function LongToInt(l: Int64): (r: Int32)
    ensures r % TwoTo32 == l % TwoTo32
  {
    var low := l % TwoTo32;
    if low < TwoTo31 then low else low - TwoTo32
  }

  /** A `long` survives the cast to `int` exactly when it lies in the `int` range. */
  lemma LongToIntExact(l: Int64)
    ensures LongToInt(l) == l <==> -TwoTo31 <= l < TwoTo31
  {
    var low := l % TwoTo32;
    if 0 <= l < TwoTo31 {
      assert low == l;
    } else if -TwoTo31 <= l < 0 {
      assert low == l + TwoTo32;
    }
  }

  /** `byteValue()` of an integral `Number`, the cast `(byte) n`: the low 8 bits, read signed. */
  function ToByte(n: int): (b: Int8)
    ensures b % 256 == n % 256
  {
    var low := n % 256;
    if low < 128 then low else low - 256
  }
}

=== FILE: table_api.dfy ===
/** The embedder table operations of the facade (`table_alloc`, `table_grow`,
    `table_read`, `table_write`, `table_size`), after the Tables subsection of
    the Embedding appendix of the WebAssembly Core Specification. A table is a
    value here: an operation that changes it returns the changed table. */
module TableApi {
  import opened Wrappers
  import opened JavaInt
  import opened Errors
  import opened Functions
  import opened Tables
  import opened HostValues

  /** What `table_read` and `table_write` return to the host: a function, or the
      void marker (`WasmVoidResult`) that stands for "no value". */
  datatype TableValue = VoidResult | Element(instance: FunctionInstance)

  const MinExceedsMaxMessage: string := "Min table size exceeds max memory size"
  const MinExceedsLimitMessage: string := "Min table size exceeds implementation limit"
  const InvalidElementMessage: string := "Invalid table element"
  const IndexOutOfBoundsPrefix: string := "Table index out of bounds: "

  /** The host-visible error of an index fault. */
  function OutOfBoundsError(t: WasmTable, index: Int32): Exception {
    JsApiException(RangeError, IndexOutOfBoundsPrefix + IndexMessage(index, |t.elements|))
  }

  /** `tableAlloc(initial, maximum)`; `limit` is the implementation's instance
      size limit. Both checks compare unsigned. */
  function TableAlloc(initial: Int32, maximum: Int32, limit: Int32): (r: Result<WasmTable, Exception>)
    ensures r.Failure? <==> Unsigned(initial) > Unsigned(maximum) || Unsigned(initial) > Unsigned(limit)
    ensures Unsigned(initial) > Unsigned(maximum) ==>
      r == Failure(JsApiException(LinkError, MinExceedsMaxMessage))
    ensures Unsigned(initial) <= Unsigned(maximum) && Unsigned(initial) > Unsigned(limit) ==>
      r == Failure(JsApiException(LinkError, MinExceedsLimitMessage))
    ensures r.Success? ==>
      && r.value.Valid()
      && Unsigned(TableSize(r.value)) == Unsigned(initial)
      && (forall i :: 0 <= i < |r.value.elements| ==> r.value.elements[i].None?)
      && r.value.declaredMaximum == maximum
      && Unsigned(r.value.maxAllowedSize) <= Unsigned(maximum)
      && Unsigned(r.value.maxAllowedSize) <= Unsigned(limit)
      && (r.value.maxAllowedSize == maximum || r.value.maxAllowedSize == limit)
      && Unsigned(initial) <= Unsigned(r.value.maxAllowedSize)
  {
    if CompareUnsigned(initial, maximum) > 0 then
      Failure(JsApiException(LinkError, MinExceedsMaxMessage))
    else if CompareUnsigned(initial, limit) > 0 then
      Failure(JsApiException(LinkError, MinExceedsLimitMessage))
    else
      var maxAllowedSize := MinUnsigned(maximum, limit);
      Success(Create(initial, maximum, maxAllowedSize))
  }

  /** A table exception that no catch clause of the facade matches: it escapes
      as the runtime exception it is. */
  function Uncaught(f: TableFault): Exception {
    OtherException(f.message)
  }

  /** `tableGrow(table, delta)`: the size before growth together with the grown
      table; a rejected growth becomes a RangeError with the table's message. */
  function TableGrow(t: WasmTable, delta: Int32): (r: Result<(Int32, WasmTable), Exception>)
    requires t.Valid()
    ensures r.Success? <==> Grow(t, delta).Success?
    ensures r.Success? <==> 0 <= delta && |t.elements| + delta <= Unsigned(t.maxAllowedSize)
    ensures r.Success? ==>
      && Unsigned(r.value.0) == |t.elements|
      && r.value.1.Valid()
      && |r.value.1.elements| == |t.elements| + delta
      && r.value.1.elements[..|t.elements|] == t.elements
      && (forall i :: |t.elements| <= i < |r.value.1.elements| ==> r.value.1.elements[i].None?)
      && r.value.1.maxAllowedSize == t.maxAllowedSize
      && r.value.1.declaredMaximum == t.declaredMaximum
    ensures r.Failure? ==> r.error == JsApiException(RangeError, Grow(t, delta).error.message)
  {
    var size := Size(t);
    match Grow(t, delta)
    case Success(grown) => Success((size, grown))
    case Failure(e) =>
      if e.IllegalArgument? then Failure(JsApiException(RangeError, e.message))
      else Failure(Uncaught(e))
  }

  /** The slot content `table_write` stores and `table_read` gives back, seen
      from the host. */
  function AsTableValue(slot: Option<FunctionInstance>): (v: TableValue)
    ensures v.VoidResult? <==> slot.None?
    ensures v.Element? ==> slot == Some(v.instance)
  {
    if slot.None? then VoidResult else Element(slot.value)
  }

  /** `tableRead(table, index)`: never a null; an empty slot reads as the void
      marker. Any `IndexOutOfBoundsException` becomes a RangeError. */
  function TableRead(t: WasmTable, index: Int32): (r: Result<TableValue, Exception>)
    ensures r.Success? <==> t.InBounds(index)
    ensures r.Success? && t.elements[index].None? ==> r.value == VoidResult
    ensures r.Success? && t.elements[index].Some? ==> r.value == Element(t.elements[index].value)
    ensures r.Failure? ==> r.error == OutOfBoundsError(t, index)
  {
    match Get(t, index)
    case Success(slot) => Success(AsTableValue(slot))
    case Failure(e) =>
      if e.IndexOutOfBounds? then Failure(JsApiException(RangeError, IndexOutOfBoundsPrefix + e.message))
      else Failure(Uncaught(e))
  }

  /** The slot content a host value denotes: a function instance, the null
      value (clears the slot), or nothing valid. */
  function ClassifyElement(element: Value, interop: Interop): (r: Option<Option<FunctionInstance>>)
    ensures element.FunctionRef? ==> r == Some(Some(element.instance))
    ensures !element.FunctionRef? ==> (r.Some? <==> interop.isNull(element))
    ensures !element.FunctionRef? && r.Some? ==> r.value.None?
  {
    if element.FunctionRef? then Some(Some(element.instance))
    else if interop.isNull(element) then Some(None)
    else None
  }

  /** `tableWrite(table, index, element)`: the element is classified before the
      table is touched; success returns the void marker. Only an
      `ArrayIndexOutOfBoundsException` becomes a RangeError. */
  function TableWrite(t: WasmTable, index: Int32, element: Value, interop: Interop)
    : (r: Result<(TableValue, WasmTable), Exception>)
    ensures ClassifyElement(element, interop).None? ==>
      r == Failure(JsApiException(TypeError, InvalidElementMessage))
    ensures ClassifyElement(element, interop).Some? ==>
      (r.Success? <==> t.InBounds(index))
    ensures ClassifyElement(element, interop).Some? && !t.InBounds(index) ==>
      r == Failure(OutOfBoundsError(t, index))
    ensures r.Success? ==>
      && r.value.0 == VoidResult
      && |r.value.1.elements| == |t.elements|
      && r.value.1.elements[index] == ClassifyElement(element, interop).value
      && (forall j :: 0 <= j < |t.elements| && j != index ==> r.value.1.elements[j] == t.elements[j])
      && r.value.1.maxAllowedSize == t.maxAllowedSize
      && r.value.1.declaredMaximum == t.declaredMaximum
  {
    match ClassifyElement(element, interop)
    case None => Failure(JsApiException(TypeError, InvalidElementMessage))
    case Some(slot) =>
      match Set(t, index, slot)
      case Success(written) => Success((VoidResult, written))
      case Failure(e) =>
        if e.IndexOutOfBounds? && e.arrayIndex then
          Failure(JsApiException(RangeError, IndexOutOfBoundsPrefix + e.message))
        else Failure(Uncaught(e))
  }

  /** `tableSize(table)`. */
  function TableSize(t: WasmTable): (n: Int32)
    requires t.Valid()
    ensures Unsigned(n) == |t.elements|
  {
    Size(t)
  }

  /** A freshly allocated table has `initial` slots and every one reads as void. */
  lemma AllocThenRead(initial: Int32, maximum: Int32, limit: Int32, index: Int32)
    requires Unsigned(initial) <= Unsigned(maximum) && Unsigned(initial) <= Unsigned(limit)
    ensures TableAlloc(initial, maximum, limit).Success?
    ensures TableSize(TableAlloc(initial, maximum, limit).value) == initial
    ensures 0 <= index < Unsigned(initial) ==>
      TableRead(TableAlloc(initial, maximum, limit).value, index) == Success(VoidResult)
  {
    var t := TableAlloc(initial, maximum, limit).value;
    UnsignedInjective(TableSize(t), initial);
  }

  /** After a successful grow the size is the returned previous size plus
      `delta`, old slots read as before and new slots read as void; a rejected
      grow is reported as a RangeError. */
  lemma GrowThenRead(t: WasmTable, delta: Int32, index: Int32)
    requires t.Valid()
    ensures TableGrow(t, delta).Success? ==>
      && Unsigned(TableSize(TableGrow(t, delta).value.1)) == Unsigned(TableGrow(t, delta).value.0) + delta
      && (t.InBounds(index) ==> TableRead(TableGrow(t, delta).value.1, index) == TableRead(t, index))
      && (|t.elements| <= index < |t.elements| + delta ==>
            TableRead(TableGrow(t, delta).value.1, index) == Success(VoidResult))
    ensures TableGrow(t, delta).Failure? ==> TableGrow(t, delta).error.kind == RangeError
  {
    if TableGrow(t, delta).Success? {
      var grown := TableGrow(t, delta).value.1;
      if t.InBounds(index) {
        assert grown.elements[index] == grown.elements[..|t.elements|][index];
      }
    }
  }

  /** A write followed by a read at the same index gives back what was
      written; other slots are untouched. */
  lemma WriteThenRead(t: WasmTable, index: Int32, element: Value, interop: Interop, other: Int32)
    requires TableWrite(t, index, element, interop).Success?
    ensures TableRead(TableWrite(t, index, element, interop).value.1, index)
         == Success(AsTableValue(ClassifyElement(element, interop).value))
    ensures other != index ==>
      TableRead(TableWrite(t, index, element, interop).value.1, other) == TableRead(t, other)
  {
  }

  /** Outside the table, reads and writes of valid elements fail with a
      RangeError whatever the table holds. */
  lemma OutOfBoundsIsRangeError(t: WasmTable, index: Int32, element: Value, interop: Interop)
    requires !t.InBounds(index)
    ensures TableRead(t, index).Failure? && TableRead(t, index).error.kind == RangeError
    ensures ClassifyElement(element, interop).Some? ==>
      TableWrite(t, index, element, interop).Failure? &&
      TableWrite(t, index, element, interop).error.kind == RangeError
  {
  }
}

=== FILE: tables.dfy ===
/** The engine's table of function references (`WasmTable`). Its code is not
    part of this model: the operations below state the contract the API facade
    relies on, and are assumptions about that class. */
module Tables {
  import opened Wrappers
  import opened JavaInt
  import opened Decimal
  import opened Functions

  /** A table: its slots (an empty slot holds no function), the declared
      maximum and the bound that growth may not pass. */
  datatype WasmTable = WasmTable(
    elements: seq<Option<FunctionInstance>>,
    declaredMaximum: Int32,
    maxAllowedSize: Int32)
  {
    /** The table never holds more slots than its bound allows. */
    predicate Valid() {
      |elements| <= Unsigned(maxAllowedSize)
    }

    predicate InBounds(index: Int32) {
      0 <= index < |elements|
    }
  }

  /** The Java exceptions a table operation throws. An index fault records
      whether it is the `ArrayIndexOutOfBoundsException` subclass or a plain
      `IndexOutOfBoundsException`: the facade's catch clauses differ in width. */
  datatype TableFault =
    | IllegalArgument(message: string)
    | IndexOutOfBounds(message: string, arrayIndex: bool)

  /** The message of a rejected growth (assumed). */
  const GrowLimitMessage: string := "Table size exceeds maximum allowed size"

  /** The message of an array index fault, as the Java runtime words it. */
  function IndexMessage(index: Int32, length: nat): string {
    "Index " + IntToDecimal(index) + " out of bounds for length " + IntToDecimal(length)
  }

  function EmptySlots(n: nat): (s: seq<Option<FunctionInstance>>)
    ensures |s| == n
    ensures forall i :: 0 <= i < n ==> s[i].None?
  {
    seq(n, _ => None)
  }

  /** `new WasmTable(initial, maximum, maxAllowedSize)`: `initial` empty slots. */
  function Create(initial: Int32, maximum: Int32, maxAllowedSize: Int32): (t: WasmTable)
    requires Unsigned(initial) <= Unsigned(maxAllowedSize)
    ensures t.Valid()
    ensures |t.elements| == Unsigned(initial)
    ensures forall i :: 0 <= i < |t.elements| ==> t.elements[i].None?
    ensures t.declaredMaximum == maximum && t.maxAllowedSize == maxAllowedSize
  {
    WasmTable(EmptySlots(Unsigned(initial)), maximum, maxAllowedSize)
  }

  /** `size()`: the slot count, as a Java `int` whose unsigned reading is the count. */
  function Size(t: WasmTable): (n: Int32)
    requires t.Valid()
    ensures Unsigned(n) == |t.elements|
  {
    FromUnsigned(|t.elements|)
  }

  /** `grow(delta)`: appends `delta` empty slots, or rejects a negative delta or
      a size beyond the bound with an argument error. */
  function Grow(t: WasmTable, delta: Int32): (r: Result<WasmTable, TableFault>)
    requires t.Valid()
    ensures r.Success? <==> 0 <= delta && |t.elements| + delta <= Unsigned(t.maxAllowedSize)
    ensures r.Success? ==>
      && r.value.Valid()
      && |r.value.elements| == |t.elements| + delta
      && r.value.elements[..|t.elements|] == t.elements
      && (forall i :: |t.elements| <= i < |r.value.elements| ==> r.value.elements[i].None?)
      && r.value.declaredMaximum == t.declaredMaximum
      && r.value.maxAllowedSize == t.maxAllowedSize
    ensures r.Failure? ==> r.error.IllegalArgument?
  {
    if 0 <= delta && |t.elements| + delta <= Unsigned(t.maxAllowedSize) then
      var grown := t.elements + EmptySlots(delta);
      assert grown[..|t.elements|] == t.elements;
      Success(t.(elements := grown))
    else
      Failure(IllegalArgument(GrowLimitMessage))
  }

  /** `get(index)`: the slot's content, or an array index fault outside the table. */
  function Get(t: WasmTable, index: Int32): (r: Result<Option<FunctionInstance>, TableFault>)
    ensures r.Success? <==> t.InBounds(index)
    ensures r.Success? ==> r.value == t.elements[index]
    ensures r.Failure? ==> r.error == IndexOutOfBounds(IndexMessage(index, |t.elements|), true)
  {
    if t.InBounds(index) then Success(t.elements[index])
    else Failure(IndexOutOfBounds(IndexMessage(index, |t.elements|), true))
  }

  /** `set(index, element)`: replaces one slot, or an array index fault outside the table. */
  function Set(t: WasmTable, index: Int32, element: Option<FunctionInstance>): (r: Result<WasmTable, TableFault>)
    ensures r.Success? <==> t.InBounds(index)
    ensures r.Success? ==>
      && |r.value.elements| == |t.elements|
      && r.value.elements[index] == element
      && (forall j :: 0 <= j < |t.elements| && j != index ==> r.value.elements[j] == t.elements[j])
      && r.value.declaredMaximum == t.declaredMaximum
      && r.value.maxAllowedSize == t.maxAllowedSize
    ensures r.Failure? ==> r.error == IndexOutOfBounds(IndexMessage(index, |t.elements|), true)
  {
    if t.InBounds(index) then Success(t.(elements := t.elements[index := element]))
    else Failure(IndexOutOfBounds(IndexMessage(index, |t.elements|), true))
  }
}

=== FILE: wrappers.dfy ===
/** Failure-compatible result types used by every module of the model.
    A Java exception thrown across the API boundary becomes a `Failure`. */
module Wrappers {

  datatype Option<+T> = None | Some(value: T)

  datatype Result<+T, +E> = Success(value: T) | Failure(error: E) {

    predicate IsFailure() {
      Failure?
    }

    function PropagateFailure<U>(): Result<U, E>
      requires Failure?
    {
      Failure(error)
    }

    function Extract(): T
      requires Success?
    {
      value
    }
  }

  /** A check that either passes or carries the failure it raised. */
  datatype Outcome<+E> = Pass | Fail(error: E)
}
